=== FILE: README.md ===
# Birthday greeting app — Dafny model of its sequential logic

The app is a three-screen birthday greeting: the visitor blows out three
candles into the microphone, watches fireworks, browses a gallery of notes
and opens a password-protected letter that types itself out. Most of the
code draws on a canvas; this project models the parts that are state
machines and proves what they promise:

- **Blow detection** (`BlowDetector`, `blow_detector.dfy`): each animation
  frame's loudness is the mean of the lowest fifth of the analyser's byte
  bins; a frame louder than 30 starts or continues a blow, a blow that has
  lasted 2000 ms puts a candle out and resets, and a quiet frame more than
  500 ms after the blow *started* abandons it. Frame sequences are run
  through the step function to prove that quiet input never blows anything
  out, that two blow-outs are always at least 2000 ms apart, and that one
  sustained blow of 2000 to 4000 ms puts out exactly one candle.
- **Candles** (`Candles`, `candles.dfy`): the cake's candles as lit flags;
  `blowOutCandle` puts out exactly one lit candle chosen by the random draw,
  and signals completion exactly when it put out the last one.
- **Candle screen** (`CandleScreen`, `candle_screen.dfy`): microphone
  permission, frames processed only while listening, and the 2-second
  completion timer that calls `onComplete` and stops listening; over any
  event sequence `onComplete` fires at most once, and only with every candle out.
- **Counter** (`Counter`, `counter.dfy`): elapsed milliseconds split into
  days, hours, minutes and seconds, with JavaScript's truncating `%`
  written out; the decomposition is in range and inverts exactly.
- **Letter** (`Text`, `text.dfy`; `Letter`, `letter.dfy`): the answer is
  lower-cased and trimmed and compared with the lower-cased stored
  password; success unlocks the letter until it is closed, failure shows
  the error and clears the input; the typewriter always shows a prefix of the letter.
- **Notes gallery** (`NotesGallery`, `notes_gallery.dfy`): clicking a note
  toggles it; only the selected note is expanded.
- **Screen router** (`App`, `app.dfy`): candles, then (4 s after candle
  completion) notes, then letter and back; the candle screen is never
  re-entered; the music flag is set only by a successful `play()`.

Timers (`setTimeout`, `requestAnimationFrame`) are explicit events of the
step functions; the random draw, the frame timestamps, the analyser bins,
the stored password and the letter's text are parameters.

## Behaviour the model follows from the code

- The 500 ms reset window is measured from the blow start, not from the last
  loud frame (`BlowDetector.ResetMeasuredFromBlowStart`): a blow longer than
  500 ms is abandoned by a single quiet frame.
- The quiet branch tests the start time for truthiness, so a recorded start
  of 0 is treated as no start (`BlowDetector.HasTruthyStart`). `Date.now()`
  is never 0 in practice.
- With fewer than five bins the mean is 0/0 (NaN), which never exceeds the
  threshold, so such frames are quiet (`BlowDetector.Loudness` returns `None`).
- Only the typed answer is trimmed, so "Paris" does not open a stored
  password "paris " with a trailing space (`Letter.ParisAgainstTrailingSpace`);
  a stored password with surrounding white space can never be matched
  (`Letter.StoredWhitespaceNeverMatches`).
- Clicking the same note twice ends with no note open only if that note was
  not open before; if it was, it is open again (`NotesGallery.ClickTwice`).
- The answer field is `required`, so an empty answer is never submitted.
- For a negative difference (a clock before the start date) the counter shows
  negative units, because `%` truncates toward zero; the range and
  reconstruction lemmas are stated for non-negative differences.

## Model

| member | source | states |
|---|---|---|
| BlowDetector.LowFreqRange | src/components/CandleScreen.tsx:82 | the number of low bins is the whole part of a fifth of the bin count |
| BlowDetector.LowBandSum | src/components/CandleScreen.tsx:87-90 | the summing loop adds exactly the first `LowFreqRange` bins, giving a total between 0 and 255 per bin |
| BlowDetector.Loudness | src/components/CandleScreen.tsx:82-91 | the loudness is undefined (NaN) exactly when there are fewer than five bins, and otherwise the mean of the low bins: times their number it gives their sum, and it lies between 0 and 255 |
| BlowDetector.IsLoud | src/components/CandleScreen.tsx:91-97 | a frame is loud when its mean exceeds 30; a frame with fewer than five bins is never loud |
| BlowDetector.LoudIffSumAboveThreshold | src/components/CandleScreen.tsx:91-97 | a frame counts as loud exactly when there are low bins and their sum exceeds 30 times their number; a mean of exactly 30 is quiet |
| BlowDetector.Progress | src/components/CandleScreen.tsx:103 | the progress is within 0 to 100 for a non-negative duration, reaches 100 exactly at the required 2000 ms, and below that is the duration's percentage of 2000 ms |
| BlowDetector.HasTruthyStart | src/components/CandleScreen.tsx:112 | the quiet branch's truthiness test: a start recorded at time 0 does not count as a start |
| BlowDetector.DetectSound | src/components/CandleScreen.tsx:94-116 | a loud frame records `now` as the start if none is recorded; it extinguishes exactly when the blow has lasted 2000 ms, and then resets to idle with progress 0; otherwise the progress is the blown fraction of 2000 ms; a quiet frame never extinguishes, resets when a truthy start lies more than 500 ms back, and changes nothing otherwise |
| BlowDetector.Run | src/components/CandleScreen.tsx:94-117 | re-running the step once per frame extinguishes at most once per frame, and only a run containing a loud frame extinguishes anything |
| BlowDetector.QuietRunNeverBlowsOut | src/components/CandleScreen.tsx:111-116 | frames at or below the threshold never extinguish a candle, and an idle detector stays idle with an empty bar |
| BlowDetector.BlowOutsAreSpaced | src/components/CandleScreen.tsx:106-110 | over chronological frames every extinguish accounts for 2000 ms of elapsed time, so extinguishes are at least 2000 ms apart |
| BlowDetector.AtMostOneBlowOutPerWindow | src/components/CandleScreen.tsx:106-110 | from idle, frames spanning under 4000 ms extinguish at most one candle |
| BlowDetector.SustainedBlowBlowsOut | src/components/CandleScreen.tsx:97-107 | loud frames kept up until 2000 ms after the blow start extinguish at least one candle |
| BlowDetector.OneSustainedBlowOneCandle | src/components/CandleScreen.tsx:97-110 | a continuous blow of at least 2000 ms and under 4000 ms, from idle, extinguishes exactly one candle |
| BlowDetector.ResetMeasuredFromBlowStart | src/components/CandleScreen.tsx:112 | a quiet frame 1 ms after a loud one still abandons a blow that started 500 ms or more before it |
| Candles.LitCount | src/components/CandleScreen.tsx:61 | the lit count is at most the number of candles |
| Candles.NoneLitIff | src/components/CandleScreen.tsx:51-52 | the lit count is zero exactly when no candle is lit, which is when `blowOutCandle` returns the list unchanged |
| Candles.InitCandles | src/components/CandleScreen.tsx:173-183 | initialisation makes three candles, all lit |
| Candles.NthLit | src/components/CandleScreen.tsx:51-55 | `litCandles[k]` is a lit candle with exactly `k` lit candles before it |
| Candles.NthLitOfLitCandle | src/components/CandleScreen.tsx:51-55 | every lit candle is `litCandles[k]` for the number `k` of lit candles before it |
| Candles.RandomIndex | src/components/CandleScreen.tsx:54 | a draw in [0, 1) gives an index below the lit count, the whole part of draw times count |
| Candles.EveryLitCandleCanBeChosen | src/components/CandleScreen.tsx:51-58 | for every lit candle some draw in [0, 1) makes `blowOutCandle` put out that candle, so the choice ranges over all lit candles |
| Candles.PutOutDecrementsLitCount | src/components/CandleScreen.tsx:57-61 | putting out one lit candle lowers the lit count by exactly one |
| Candles.BlowOutCandle | src/components/CandleScreen.tsx:49-71 | with nothing lit the list comes back unchanged and nothing fires; otherwise exactly one previously lit candle goes out, every other flag and the length stay, the lit count drops by one, and completion fires exactly when the last lit candle went out |
| CandleScreen.Initial | src/components/CandleScreen.tsx:29-37 | the screen starts with three lit candles, an idle detector, the permission pending, not listening, no message and no completion scheduled |
| CandleScreen.HandleFrame | src/components/CandleScreen.tsx:94-116 | a listening frame advances the detector as `detectSound` does; candles change only when it fires, and then one lit candle goes out; the message shows and one completion is scheduled exactly when the last lit candle goes out |
| CandleScreen.Step | src/components/CandleScreen.tsx:39-159 | granting the microphone from the prompt starts listening and requests the music, and no other event requests it; denying it records the denial; only a frame touches the candles or the detector; frames are ignored unless listening, and while listening they advance the detector and put a candle out exactly when the detector fires and one is lit; candles only go out, at most one per event; a scheduled timer always calls `onComplete`, which fires from nothing else and stops listening; a completion is scheduled, and the message appears, exactly when the last lit candle goes out; a scheduled completion is used up only by its own timer, which then calls `onComplete`, so no frame or other event drops it; only the microphone request changes the permission, and a timer with nothing scheduled changes nothing |
| CandleScreen.InitialReachable | src/components/CandleScreen.tsx:173-185 | the initial screen satisfies the reachable-state invariant |
| CandleScreen.StepPreservesReachable | src/components/CandleScreen.tsx:61-68 | every event keeps three candles, the message shown exactly when all are out, and one completion (pending or delivered) exactly when all are out |
| CandleScreen.Run | src/components/CandleScreen.tsx:49-71 | over any event sequence the cake keeps its candles, no candle is relit and the lit count never grows |
| CandleScreen.RunPreservesReachable | src/components/CandleScreen.tsx:61-68 | the invariant holds after any sequence of events |
| CandleScreen.CompletionAtMostOnce | src/components/CandleScreen.tsx:61-68 | whatever the events, `onComplete` fires at most once, and only after every candle is out |
| Counter.FloorDiv | src/components/Counter.tsx:19 | `Math.floor(a / b)` is the largest `q` with `q * b` not above `a` |
| Counter.JsRem | src/components/Counter.tsx:20-22 | JavaScript's `%` keeps the sign of the dividend, is smaller than the divisor in magnitude, and differs from the dividend by the truncated multiple |
| Counter.CalculateTime | src/components/Counter.tsx:19-22 | for a non-negative difference hours lie in 0..23 and minutes and seconds in 0..59; days is the floor of the difference over a day |
| Counter.CalculateTimeReconstructs | src/components/Counter.tsx:19-22 | days, hours, minutes and seconds add back up to the difference less its sub-second remainder |
| Counter.CalculateTimeInvertsToMillis | src/components/Counter.tsx:19-22 | any in-range days/hours/minutes/seconds plus sub-second milliseconds decompose back to themselves |
| Text.IsWhitespace | src/components/Letter.tsx:43 | the characters `trim` removes are JavaScript's white space and line terminators; no letter or digit is among them |
| Text.LowerChar | src/components/Letter.tsx:43 | one character of `toLowerCase` for ASCII: the result is never upper-case, an upper-case letter moves to its lower-case partner, and every other character is kept |
| Text.Lower | src/components/Letter.tsx:43 | lower-casing keeps the length, lower-cases each character, leaves no upper-case letter and changes only upper-case letters |
| Text.LowerIdempotent | src/components/Letter.tsx:43 | lower-casing twice is lower-casing once |
| Text.Trim | src/components/Letter.tsx:43 | the trimmed string occurs in the input with only white space before and after it, and neither starts nor ends with white space |
| Text.TrimUnique | src/components/Letter.tsx:43 | that description of trimming admits only one result |
| Text.TrimIdempotent | src/components/Letter.tsx:43 | trimming twice is trimming once |
| Text.TrimIgnoresSurroundingWhitespace | src/components/Letter.tsx:43 | white space added around a string is trimmed away again |
| Letter.PasswordMatches | src/components/Letter.tsx:43 | the lower-cased, trimmed answer is compared with the lower-cased stored password; only white space is dropped, so a matching answer is at least as long as the stored password |
| Letter.MatchIgnoresCase | src/components/Letter.tsx:43 | the case of the typed answer does not affect the comparison |
| Letter.MatchIgnoresSurroundingWhitespace | src/components/Letter.tsx:43 | white space typed around the answer does not affect the comparison |
| Letter.StoredWhitespaceNeverMatches | src/components/Letter.tsx:43 | the stored password is not trimmed: one that starts or ends with white space is matched by no answer |
| Letter.ParisAgainstTrailingSpace | src/components/Letter.tsx:43 | "Paris" does not open the stored password "paris " |
| Letter.PaddedParisOpens | src/components/Letter.tsx:43 | " Paris " opens the stored password "paris" |
| Letter.HandleSubmit | src/components/Letter.tsx:41-51 | a matching answer unlocks and hides the error; a wrong one shows the error, clears the input and leaves the lock as it was; the typewriter is untouched |
| Letter.TypeWriter | src/components/Letter.tsx:25-33 | one call shows one more character of the letter or, at the end, stops typing; the shown text stays the prefix up to the position |
| Letter.InitialConsistent | src/components/Letter.tsx:10-14 | the initial state is locked, shows nothing and is not typing |
| Letter.Step | src/components/Letter.tsx:18-51 | every event keeps the shown text a prefix of the letter and nothing typed while locked; a non-empty matching submit unlocks, hides the error and keeps the answer, and unlocking happens on nothing else (an empty answer is not submitted, the field being `required`); unlocking shows the first character and starts typing, or stops at once for an empty letter; a wrong answer shows the error and clears the input; a keystroke replaces the answer, the error timer hides the error, and a tick while typing shows one more character or stops at the end; the lock, once open, stays open while the letter is shown; a tick changes neither the answer, the error nor the lock, and a submit on an open letter does not restart or advance the typewriter |
| Letter.TypeWriterCalls | src/components/Letter.tsx:25-35 | any number of typewriter calls shows a prefix of the letter |
| Letter.TypeWriterProgress | src/components/Letter.tsx:20-35 | after `n` calls the first `n` characters are shown while typing; one call after the last character typing stops with the whole letter shown; empty content stops at once with nothing shown |
| Letter.Run | src/components/Letter.tsx:11-51 | over any event sequence the shown text stays a prefix of the letter and an unlocked letter stays unlocked |
| Letter.LockedWithoutCorrectAnswer | src/components/Letter.tsx:41-51 | while every typed answer is empty or wrong, the letter stays locked and shows nothing |
| NotesGallery.Expanded | src/components/NotesGallery.tsx:45 | a note is expanded and its heart highlighted when its id is the selected one; nothing is expanded without a selection |
| NotesGallery.ExpandedIdUnique | src/components/NotesGallery.tsx:64 | one selection expands at most one id |
| NotesGallery.InitiallyNothingExpanded | src/components/NotesGallery.tsx:10 | initially no note is expanded |
| NotesGallery.HandleNoteClick | src/components/NotesGallery.tsx:17-19 | the clicked note flips between expanded and collapsed and every other note ends up collapsed |
| NotesGallery.ClickTwice | src/components/NotesGallery.tsx:17-19 | two clicks on the same note restore it if it was open and otherwise leave no note open |
| NotesGallery.ClickShowsOnlyClickedNote | src/components/NotesGallery.tsx:17-19 | with distinct ids, clicking a note leaves exactly that note expanded, or none when it was the open one |
| NotesGallery.AtMostOneExpanded | src/components/NotesGallery.tsx:62-67 | with distinct ids at most one note is expanded |
| App.InitialOnCandles | src/App.tsx:10-15 | the app starts on the candle screen with fireworks off and no music |
| App.Step | src/App.tsx:17-61 | candle completion turns the fireworks on and keeps the screen; the 4 s timer moves to the notes and clears the fireworks, and without a pending timer changes nothing; the letter button opens the letter and back returns to the notes, both leaving the overlay alone; the music flag becomes true exactly when `play()` resolves, is never cleared, and a play request changes nothing else; no event leads back to the candle screen |
| App.Run | src/App.tsx:17-30 | over any event sequence the music flag, once set by a resolved `play()`, stays set |
| App.CandlesNeverReentered | src/App.tsx:32-61 | once the candle screen is left it is never shown again |
| App.CandlesUntilFireworksTimer | src/App.tsx:32-38 | until the fireworks timer fires the app stays on the candle screen |
| App.CompletionThenTimerShowsNotes | src/App.tsx:32-38 | candle completion followed by its timer lands on the notes with the overlay cleared |

## Left out

- Microphone and audio-context setup (`getUserMedia`, the analyser's FFT size and smoothing, closing the audio context): browser I/O; the outcome of the permission request is the `MicGranted`/`MicDenied` event and the analyser's output is the frame's bin sequence.
- Canvas drawing of the cake, candle wicks and flickering flames, and window resizing: floating-point drawing with nothing to prove.
- Candle coordinates and flame sizes: only the lit flags matter to the logic.
- The fireworks and confetti overlays: particle animation driven by `Math.random`.
- Timer delays (2000 ms completion, 4000 ms fireworks, 3000 ms error, 50 ms typewriter) and frame scheduling: each timer firing is an explicit event, so the delays themselves are not measured.
- The `soundLevel` state and the sound meter: rendering only.
- Floating-point rounding: loudness and progress are exact reals, and `floor(binCount * 0.2)` is integer division by five.
- The start date and the clock of the counter: the difference in milliseconds is a parameter.
- Loading of the static JSON: the stored password, the letter text and the notes list are parameters.
- React state batching and Strict Mode's double invocation of state updaters.
- The notes gallery's 500 ms fade-in and all markup and styling.
- Text.Lower: only ASCII letters are lower-cased; the full Unicode `toLowerCase` (including Turkish dotted and dotless i) is not modelled.
- CandleScreen.Step: overlapping permission requests are not modelled. The permission button stays on screen while `initializeMicrophone` awaits, so a second click can grant twice, calling `onPlayMusic` again and starting a second `detectSound` loop that `stopListening` does not cancel. The model lets a grant count only while the permission is pending.
- Letter.Step: closing the letter unmounts it, so opening it again starts locked with an empty answer and asks for the password again; the model follows one mounting of the letter, within which the lock stays open.
- Letter.TypeWriter: JavaScript's `length` and `slice` count UTF-16 code units, while the model's strings are sequences of Unicode characters; for a letter containing characters outside the Basic Multilingual Plane (emoji) the code takes two ticks per such character and briefly shows half a surrogate pair, which the model's one character per tick does not reproduce.
- Letter.Step: the error-hiding timer may fire at any time rather than only 3000 ms after a failed submit; this over-approximates the timer and hides the error flag as the code does.
- BlowDetector.OneSustainedBlowOneCandle: how many candles several back-to-back blows put out depends on the frame rate, so only the one-blow case and the 2000 ms spacing bound are stated.

=== FILE: app.dfy ===
/**
 * The root screen controller: candles, then the notes gallery, then the
 * letter and back, with the fireworks overlay shown for 4 s between the
 * candles and the notes, and the background music flag.
 */
module App {

  datatype ScreenName = Candles | Notes | Letter

  /** `fireworksTimers` counts the 4-second timers set by `handleCandlesComplete` that have not fired. */
  datatype AppState = AppState(screen: ScreenName, showFireworks: bool, musicPlaying: bool, fireworksTimers: nat)

  /**
   * What reaches the controller: `onComplete` from the candle screen, the
   * 4-second timer, the letter button of the gallery, the back button of
   * the letter, and a play request with whether the audio element was
   * mounted and whether `play()` resolved.
   */
  datatype AppEvent =
    | CandlesComplete
    | FireworksTimer
    | LetterClick
    | Back
    | PlayMusic(audioMounted: bool, playResolved: bool)

  /** The `useState` initial values. */
  const Initial: AppState := AppState(Candles, false, false, 0)

  function Step(s: AppState, e: AppEvent): (r: AppState)
    // candle completion starts the fireworks over the current screen
    ensures e == CandlesComplete ==>
      r.showFireworks && r.screen == s.screen && r.fireworksTimers == s.fireworksTimers + 1
    // the fireworks timer moves to the notes and clears the overlay
    ensures e == FireworksTimer && s.fireworksTimers > 0 ==>
      r.screen == Notes && !r.showFireworks && r.fireworksTimers == s.fireworksTimers - 1
    // the gallery's letter button opens the letter, the letter's back button returns to the gallery
    ensures e == LetterClick ==> r.screen == (if s.screen == Notes then Letter else s.screen)
    ensures e == Back ==> r.screen == (if s.screen == Letter then Notes else s.screen)
    // the music flag is set only by a resolved `play()` and never cleared
    ensures r.musicPlaying <==>
      s.musicPlaying || (e.PlayMusic? && e.audioMounted && e.playResolved)
    // no event returns to the candle screen
    ensures r.screen == Candles ==> s.screen == Candles
    // the overlay is only ever shown by a candle completion
    ensures r.showFireworks && !s.showFireworks ==> e == CandlesComplete
    // the music request touches nothing but the music flag
    ensures e.PlayMusic? ==> r.(musicPlaying := s.musicPlaying) == s
    // the navigation buttons leave the overlay and its timers alone
    ensures e == LetterClick || e == Back ==>
      r.showFireworks == s.showFireworks && r.fireworksTimers == s.fireworksTimers
    // a fireworks timer that was never set changes nothing
    ensures e == FireworksTimer && s.fireworksTimers == 0 ==> r == s
  {
    match e
    case CandlesComplete =>
      s.(showFireworks := true, fireworksTimers := s.fireworksTimers + 1)
    case FireworksTimer =>
      if s.fireworksTimers > 0 then
        s.(screen := Notes, showFireworks := false, fireworksTimers := s.fireworksTimers - 1)
      else s
    case LetterClick =>
      // the button is rendered only by the notes gallery
      if s.screen == Notes then s.(screen := Letter) else s
    case Back =>
      // the button is rendered only by the letter
      if s.screen == Letter then s.(screen := Notes) else s
    case PlayMusic(audioMounted, playResolved) =>
      if audioMounted && playResolved then s.(musicPlaying := true) else s
  }

  lemma InitialOnCandles()
    ensures Initial.screen == Candles && !Initial.showFireworks && !Initial.musicPlaying
  {
  }

  function Run(s: AppState, events: seq<AppEvent>): (r: AppState)
    // once playing, the music flag stays set
    ensures s.musicPlaying ==> r.musicPlaying
    decreases |events|
  {
    if |events| == 0 then s else Run(Step(s, events[0]), events[1..])
  }

  /** Once the candle screen is left it is never shown again. */
  lemma {:induction false} CandlesNeverReentered(s: AppState, events: seq<AppEvent>)
    requires s.screen != Candles
    ensures Run(s, events).screen != Candles
    decreases |events|
  {
    if |events| > 0 {
      CandlesNeverReentered(Step(s, events[0]), events[1..]);
    }
  }

  /** Until the fireworks timer fires, the app stays on the candle screen. */
  lemma {:induction false} CandlesUntilFireworksTimer(s: AppState, events: seq<AppEvent>)
    requires s.screen == Candles
    requires forall i :: 0 <= i < |events| ==> events[i] != FireworksTimer
    ensures Run(s, events).screen == Candles
    decreases |events|
  {
    if |events| > 0 {
      CandlesUntilFireworksTimer(Step(s, events[0]), events[1..]);
    }
  }

  /** Candle completion followed by its timer lands on the notes screen with the overlay cleared. */
  lemma CompletionThenTimerShowsNotes(s: AppState)
    ensures var r := Run(s, [CandlesComplete, FireworksTimer]);
      r.screen == Notes && !r.showFireworks
  {
    var t := Step(s, CandlesComplete);
    assert [CandlesComplete, FireworksTimer][1..] == [FireworksTimer];
    assert Run(t, [FireworksTimer]) == Step(t, FireworksTimer);
  }
}

=== FILE: blow_detector.dfy ===
/**
 * The per-frame blow detector of the candle screen.
 *
 * Every animation frame the analyser delivers one byte per frequency bin.
 * The loudness of the frame is the mean of the lowest fifth of the bins; a
 * frame louder than `BlowSensitivity` starts (or continues) a blow, a blow
 * that has lasted `RequiredBlowDuration` milliseconds extinguishes a candle,
 * and a quiet frame more than `BlowResetTime` milliseconds after the blow
 * STARTED abandons the blow.
 */
module BlowDetector {
  import opened Wrappers
  import opened Reals

  /** Loudness (on the analyser's 0..255 scale) a frame must exceed to count as blowing. */
  const BlowSensitivity: int := 30
  /** Milliseconds a blow must last before a candle goes out. */
  const RequiredBlowDuration: int := 2000
  /** Milliseconds after the blow start past which a quiet frame abandons the blow. */
  const BlowResetTime: int := 500

  /** One frequency-bin magnitude as delivered by `getByteFrequencyData`. */
  newtype byte = x: int | 0 <= x < 256

  /** Number of low-frequency bins averaged: `floor(binCount * 0.2)`. */
  function LowFreqRange(binCount: nat): (n: nat)
    ensures 5 * n <= binCount < 5 * n + 5
  {
    binCount / 5
  }

  /** Sum of a run of bins. */
  function Sum(s: seq<byte>): (r: int)
    ensures 0 <= r <= 255 * |s|
  {
    if |s| == 0 then 0 else Sum(s[..|s| - 1]) + s[|s| - 1] as int
  }

  /** The summing loop of `detectSound`: adds up the first `LowFreqRange` bins. */
  method LowBandSum(bins: seq<byte>) returns (sum: int)
    ensures sum == Sum(bins[..LowFreqRange(|bins|)])
    ensures 0 <= sum <= 255 * LowFreqRange(|bins|)
  {
    var range := LowFreqRange(|bins|);
    sum := 0;
    var i := 0;
    while i < range
      invariant 0 <= i <= range
      invariant sum == Sum(bins[..i])
    {
      assert bins[..i + 1][..i] == bins[..i];
      sum := sum + bins[i] as int;
      i := i + 1;
    }
    assert bins[..range][..range] == bins[..range];
  }

  /**
   * The loudness of a frame: the mean of the low-frequency bins, or `None`
   * when there are no such bins (the source then divides 0 by 0, giving NaN).
   */
  function Loudness(bins: seq<byte>): (r: Option<real>)
    ensures r.None? <==> |bins| < 5
    ensures r.Some? ==> 0.0 <= r.value <= 255.0
    // the value is the mean: times the number of low bins it gives back their sum
    ensures r.Some? ==> r.value * LowFreqRange(|bins|) as real == Sum(bins[..LowFreqRange(|bins|)]) as real
  {
    var range := LowFreqRange(|bins|);
    if range == 0 then None
    else
      var sum := Sum(bins[..range]);
      assert sum as real <= 255.0 * range as real;
      MeanWithin(sum as real, range as real, 255.0);
      Some(sum as real / range as real)
  }

  /** `averageLowFreq > BLOW_SENSITIVITY`; NaN compares false, so no bins means quiet. */
  predicate IsLoud(bins: seq<byte>)
    // a frame with fewer than five bins has no low band and is never loud
    ensures IsLoud(bins) ==> |bins| >= 5
  {
    var level := Loudness(bins);
    level.Some? && level.value > BlowSensitivity as real
  }

  /** The loudness test stated over integers: the bin sum exceeds 30 times the bin count. */
  lemma LoudIffSumAboveThreshold(bins: seq<byte>)
    ensures IsLoud(bins) <==>
      var range := LowFreqRange(|bins|);
      range > 0 && Sum(bins[..range]) > BlowSensitivity * range
  {
    var range := LowFreqRange(|bins|);
    if range > 0 {
      var sum := Sum(bins[..range]);
      MeanAboveIff(sum as real, range as real, BlowSensitivity as real);
      assert (BlowSensitivity * range) as real == BlowSensitivity as real * range as real;
    }
  }

  /** The detector's memory between frames: the blow start time (null when idle) and the progress bar value. */
  datatype Detector = Detector(blowStart: Option<int>, progress: real)

  /** No blow in progress and an empty progress bar. */
  const Idle: Detector := Detector(None, 0.0)

  /** What one frame produced: the new detector state and whether `blowOutCandle` was invoked. */
  datatype FrameOutcome = FrameOutcome(detector: Detector, blowOut: bool)

  /** `Math.min(100, (duration / REQUIRED_BLOW_DURATION) * 100)`. */
  function Progress(duration: int): (p: real)
    ensures duration >= 0 ==> 0.0 <= p <= 100.0
    ensures p == 100.0 <==> duration >= RequiredBlowDuration
    ensures duration < RequiredBlowDuration ==> p * RequiredBlowDuration as real == duration as real * 100.0
  {
    var ratio := duration as real / RequiredBlowDuration as real * 100.0;
    if ratio < 100.0 then ratio else 100.0
  }

  /**
   * The JavaScript test `blowStartTimeRef.current && ...`: a recorded start
   * of 0 is falsy and is treated like no start at all.
   */
  predicate HasTruthyStart(d: Detector)
    ensures HasTruthyStart(d) ==> d.blowStart.Some?
    // a start recorded at time 0 does not count as a start
    ensures d.blowStart == Some(0) ==> !HasTruthyStart(d)
  {
    d.blowStart.Some? && d.blowStart.value != 0
  }

  /** One call of `detectSound` with the frame's timestamp and bins. */
  function DetectSound(d: Detector, now: int, bins: seq<byte>): (r: FrameOutcome)
    // a loud frame keeps the recorded start, or records `now` when there is none
    ensures IsLoud(bins) && !r.blowOut ==>
      r.detector.blowStart == Some(if d.blowStart.None? then now else d.blowStart.value)
    // a loud frame extinguishes exactly when the blow has lasted the required duration
    ensures IsLoud(bins) ==>
      (r.blowOut <==> now - (if d.blowStart.None? then now else d.blowStart.value) >= RequiredBlowDuration)
    // the progress bar shows the fraction of the required duration blown so far
    ensures IsLoud(bins) && !r.blowOut ==>
      var start := r.detector.blowStart.value;
      now >= start ==>
        (0.0 <= r.detector.progress < 100.0 &&
         r.detector.progress * RequiredBlowDuration as real == (now - start) as real * 100.0)
    // an extinguishing frame forgets the blow and empties the bar
    ensures r.blowOut ==> IsLoud(bins) && r.detector == Idle
    // a quiet frame abandons a blow that started more than the reset time ago, else changes nothing
    ensures !IsLoud(bins) ==> !r.blowOut
    ensures !IsLoud(bins) && HasTruthyStart(d) && now - d.blowStart.value > BlowResetTime ==> r.detector == Idle
    ensures !IsLoud(bins) && !(HasTruthyStart(d) && now - d.blowStart.value > BlowResetTime) ==> r.detector == d
  {
    if IsLoud(bins) then
      var start := if d.blowStart.None? then now else d.blowStart.value;
      var duration := now - start;
      if duration >= RequiredBlowDuration then FrameOutcome(Idle, true)
      else FrameOutcome(Detector(Some(start), Progress(duration)), false)
    else if HasTruthyStart(d) && now - d.blowStart.value > BlowResetTime then
      FrameOutcome(Idle, false)
    else
      FrameOutcome(d, false)
  }

  /** One animation frame: the `Date.now()` timestamp and the analyser's bins. */
  datatype Frame = Frame(now: int, bins: seq<byte>)

  /** The detector after a run of frames, and how many of them extinguished a candle. */
  datatype RunOutcome = RunOutcome(detector: Detector, blowOuts: nat)

  /** `detectSound` re-scheduled once per frame over a sequence of frames. */
  function Run(d: Detector, frames: seq<Frame>): (r: RunOutcome)
    ensures r.blowOuts <= |frames|
    // every candle put out needs a loud frame
    ensures r.blowOuts > 0 ==> exists i :: 0 <= i < |frames| && IsLoud(frames[i].bins)
    decreases |frames|
  {
    if |frames| == 0 then RunOutcome(d, 0)
    else
      var o := DetectSound(d, frames[0].now, frames[0].bins);
      var rest := Run(o.detector, frames[1..]);
      RunOutcome(rest.detector, rest.blowOuts + (if o.blowOut then 1 else 0))
  }

  /** Frame timestamps never go backwards. */
  predicate Chronological(frames: seq<Frame>)
  {
    forall i, j :: 0 <= i <= j < |frames| ==> frames[i].now <= frames[j].now
  }

  /** Below-threshold frames never extinguish a candle, and an idle detector stays idle with an empty bar. */
  lemma {:induction false} QuietRunNeverBlowsOut(d: Detector, frames: seq<Frame>)
    requires forall i :: 0 <= i < |frames| ==> !IsLoud(frames[i].bins)
    ensures Run(d, frames).blowOuts == 0
    ensures d == Idle ==> Run(d, frames).detector == Idle
    decreases |frames|
  {
    if |frames| > 0 {
      var o := DetectSound(d, frames[0].now, frames[0].bins);
      QuietRunNeverBlowsOut(o.detector, frames[1..]);
    }
  }

  /**
   * Two candles never go out less than `RequiredBlowDuration` apart: over
   * chronological frames no earlier than `lo`, starting from a detector whose
   * blow (if any) started no earlier than `lo`, every extinguish accounts for
   * a full required duration of elapsed time.
   */
  lemma {:induction false} BlowOutsAreSpaced(d: Detector, frames: seq<Frame>, lo: int)
    requires Chronological(frames)
    requires forall i :: 0 <= i < |frames| ==> lo <= frames[i].now
    requires d.blowStart.Some? ==> lo <= d.blowStart.value
    ensures |frames| > 0 ==>
      Run(d, frames).blowOuts * RequiredBlowDuration <= frames[|frames| - 1].now - lo
    decreases |frames|
  {
    if |frames| > 0 {
      var o := DetectSound(d, frames[0].now, frames[0].bins);
      var rest := frames[1..];
      if o.blowOut {
        BlowOutsAreSpaced(o.detector, rest, frames[0].now);
      } else {
        BlowOutsAreSpaced(o.detector, rest, lo);
      }
    }
  }

  /** From idle, chronological frames spanning less than two required durations extinguish at most one candle. */
  lemma AtMostOneBlowOutPerWindow(frames: seq<Frame>)
    requires |frames| > 0 && Chronological(frames)
    requires frames[|frames| - 1].now - frames[0].now < 2 * RequiredBlowDuration
    ensures Run(Idle, frames).blowOuts <= 1
  {
    BlowOutsAreSpaced(Idle, frames, frames[0].now);
  }

  /**
   * Loud frames sustained until `RequiredBlowDuration` after the blow start
   * extinguish at least one candle; the blow starts either at an already
   * recorded `start` or at the first frame.
   */
  lemma {:induction false} SustainedBlowBlowsOut(d: Detector, frames: seq<Frame>, start: int)
    requires |frames| > 0
    requires forall i :: 0 <= i < |frames| ==> IsLoud(frames[i].bins)
    requires d.blowStart == Some(start) || (d.blowStart.None? && frames[0].now == start)
    requires frames[|frames| - 1].now >= start + RequiredBlowDuration
    ensures Run(d, frames).blowOuts >= 1
    decreases |frames|
  {
    var o := DetectSound(d, frames[0].now, frames[0].bins);
    if !o.blowOut {
      assert o.detector.blowStart == Some(start);
      assert |frames| > 1;
      SustainedBlowBlowsOut(o.detector, frames[1..], start);
    }
  }

  /** One continuous blow of at least 2000 ms but under 4000 ms, from idle, extinguishes exactly one candle. */
  lemma OneSustainedBlowOneCandle(frames: seq<Frame>)
    requires |frames| > 0 && Chronological(frames)
    requires forall i :: 0 <= i < |frames| ==> IsLoud(frames[i].bins)
    requires RequiredBlowDuration <= frames[|frames| - 1].now - frames[0].now < 2 * RequiredBlowDuration
    ensures Run(Idle, frames).blowOuts == 1
  {
    SustainedBlowBlowsOut(Idle, frames, frames[0].now);
    AtMostOneBlowOutPerWindow(frames);
  }

  /**
   * The reset window is measured from the blow START, not from the last loud
   * frame: a blow that began more than 500 ms ago is abandoned by a single
   * quiet frame, however recent the previous loud frame was.
   */
  lemma ResetMeasuredFromBlowStart(start: int, loudAt: int, quietBins: seq<byte>)
    requires start != 0 && start <= loudAt && loudAt - start < RequiredBlowDuration
    requires loudAt - start >= BlowResetTime
    requires !IsLoud(quietBins)
    ensures var d := Detector(Some(start), Progress(loudAt - start));
      DetectSound(d, loudAt + 1, quietBins) == FrameOutcome(Idle, false)
  {
  }
}

=== FILE: candle_screen.dfy ===
/**
 * The candle screen as a whole: microphone permission, the detector loop
 * that runs while listening, the candles it blows out, and the two-second
 * completion timer that calls `onComplete` and stops listening.
 */
module CandleScreen {
  import opened BlowDetector
  import opened Candles

  datatype Permission = Pending | Granted | Denied

  /**
   * The component's state. `pendingCompletions` counts completion timers
   * scheduled by `blowOutCandle` that have not fired yet.
   */
  datatype Screen = Screen(
    candles: seq<bool>,
    detector: Detector,
    permission: Permission,
    listening: bool,
    showMessage: bool,
    pendingCompletions: nat)

  /** What can happen to the screen: the microphone request settles, an animation frame arrives, or the completion timer fires. */
  datatype Event =
    | MicGranted
    | MicDenied
    | AnimationFrame(now: int, bins: seq<byte>, rnd: real)
    | CompletionTimer

  /** The new state plus the callbacks invoked on the way: `onPlayMusic` and `onComplete`. */
  datatype Reaction = Reaction(screen: Screen, playMusic: bool, complete: bool)

  /** The screen once `initCandles` has run: three lit candles, waiting for the microphone. */
  function Initial(): (s: Screen)
    ensures LitCount(s.candles) == InitialCandleCount
    ensures !s.listening && !s.showMessage && s.pendingCompletions == 0
    ensures s.detector == Idle && s.permission == Pending
  {
    Screen(InitCandles(), Idle, Pending, false, false, 0)
  }

  /** `Math.random()` lies in [0, 1). */
  predicate WellFormed(e: Event)
  {
    e.AnimationFrame? ==> 0.0 <= e.rnd < 1.0
  }

  /**
   * One pass of the listening loop: `detectSound` on the frame and, when it
   * fires, `blowOutCandle`, which shows the message and schedules completion
   * once the last lit candle is out.
   */
  function HandleFrame(s: Screen, now: int, bins: seq<byte>, rnd: real): (r: Screen)
    requires 0.0 <= rnd < 1.0
    ensures r.detector == DetectSound(s.detector, now, bins).detector
    ensures r.permission == s.permission && r.listening == s.listening
    ensures |r.candles| == |s.candles|
    ensures forall q :: 0 <= q < |s.candles| && !s.candles[q] ==> !r.candles[q]
    ensures !DetectSound(s.detector, now, bins).blowOut ==> r.candles == s.candles
    ensures DetectSound(s.detector, now, bins).blowOut && LitCount(s.candles) > 0 ==>
      LitCount(r.candles) == LitCount(s.candles) - 1
    ensures LitCount(s.candles) == 0 ==> r.candles == s.candles
    ensures var last := LitCount(s.candles) == 1 && LitCount(r.candles) == 0;
      && (r.showMessage <==> s.showMessage || last)
      && r.pendingCompletions == s.pendingCompletions + (if last then 1 else 0)
  {
    var o := DetectSound(s.detector, now, bins);
    if !o.blowOut then s.(detector := o.detector)
    else
      var x := BlowOutCandle(s.candles, rnd);
      s.(
        detector := o.detector,
        candles := x.candles,
        showMessage := s.showMessage || x.completed,
        pendingCompletions := s.pendingCompletions + (if x.completed then 1 else 0))
  }

  function Step(s: Screen, e: Event): (r: Reaction)
    requires WellFormed(e)
    ensures |r.screen.candles| == |s.candles|
    // candles only ever go out, at most one per event
    ensures forall q :: 0 <= q < |s.candles| && !s.candles[q] ==> !r.screen.candles[q]
    ensures LitCount(s.candles) - 1 <= LitCount(r.screen.candles) <= LitCount(s.candles)
    // frames are only processed while listening
    ensures !s.listening && e.AnimationFrame? ==> r.screen == s
    // granting the microphone from the prompt starts listening; denying it leaves the screen deaf
    ensures e == MicGranted && s.permission == Pending ==> r.screen.listening && r.screen.permission == Granted
    ensures e == MicDenied ==> r.screen.listening == s.listening
    ensures e == MicDenied && s.permission == Pending ==> r.screen.permission == Denied
    // only a frame touches the candles or the detector
    ensures !e.AnimationFrame? ==> r.screen.candles == s.candles && r.screen.detector == s.detector
    // a frame while listening advances the detector as `detectSound` does, and puts a candle
    // out exactly when the detector fires and one is still lit
    ensures s.listening && e.AnimationFrame? ==>
      var o := DetectSound(s.detector, e.now, e.bins);
      && r.screen.detector == o.detector
      && r.screen.listening
      && (LitCount(r.screen.candles) < LitCount(s.candles) <==> o.blowOut && LitCount(s.candles) > 0)
      && (!o.blowOut ==> r.screen.candles == s.candles)
    // music is requested exactly when the microphone is granted from the permission prompt
    ensures r.playMusic <==> e == MicGranted && s.permission == Pending
    // a scheduled completion timer calls `onComplete`
    ensures e == CompletionTimer && s.pendingCompletions > 0 ==> r.complete
    // `onComplete` fires only from a scheduled timer, and listening stops with it
    ensures r.complete ==> e == CompletionTimer && s.pendingCompletions > 0 && !r.screen.listening
    ensures r.complete ==> r.screen.pendingCompletions == s.pendingCompletions - 1
    // a completion timer is scheduled exactly when the last lit candle goes out
    ensures r.screen.pendingCompletions == s.pendingCompletions + 1 <==>
      LitCount(s.candles) == 1 && LitCount(r.screen.candles) == 0
    ensures r.screen.pendingCompletions <= s.pendingCompletions + 1
    // a scheduled completion is only ever used up by its own timer firing
    ensures r.screen.pendingCompletions + (if r.complete then 1 else 0) ==
      s.pendingCompletions + (if LitCount(s.candles) == 1 && LitCount(r.screen.candles) == 0 then 1 else 0)
    // only the microphone request changes the permission
    ensures !e.MicGranted? && !e.MicDenied? ==> r.screen.permission == s.permission
    // a completion timer with nothing scheduled changes nothing
    ensures e == CompletionTimer && s.pendingCompletions == 0 ==> r.screen == s && !r.complete
    // the message appears when the last lit candle goes out, and never goes away
    ensures r.screen.showMessage <==>
      s.showMessage || (LitCount(s.candles) == 1 && LitCount(r.screen.candles) == 0)
  {
    match e
    case MicGranted =>
      if s.permission == Pending then
        Reaction(s.(permission := Granted, listening := true), true, false)
      else Reaction(s, false, false)
    case MicDenied =>
      if s.permission == Pending then Reaction(s.(permission := Denied), false, false)
      else Reaction(s, false, false)
    case AnimationFrame(now, bins, rnd) =>
      if !s.listening then Reaction(s, false, false)
      else Reaction(HandleFrame(s, now, bins, rnd), false, false)
    case CompletionTimer =>
      if s.pendingCompletions > 0 then
        Reaction(s.(pendingCompletions := s.pendingCompletions - 1, listening := false), false, true)
      else Reaction(s, false, false)
  }

  /**
   * What holds of every reachable screen, given how many times `onComplete`
   * has fired: three candles; the message shows exactly when all are out;
   * and one completion, scheduled or already delivered, exists exactly when
   * all are out.
   */
  predicate Reachable(s: Screen, completions: nat)
  {
    && |s.candles| == InitialCandleCount
    && (s.showMessage <==> LitCount(s.candles) == 0)
    && s.pendingCompletions + completions == (if LitCount(s.candles) == 0 then 1 else 0)
  }

  lemma InitialReachable()
    ensures Reachable(Initial(), 0)
  {
  }

  lemma StepPreservesReachable(s: Screen, completions: nat, e: Event)
    requires WellFormed(e) && Reachable(s, completions)
    ensures var r := Step(s, e);
      Reachable(r.screen, completions + (if r.complete then 1 else 0))
  {
  }

  /** The screen after a sequence of events, and how many times `onComplete` fired. */
  datatype Trace = Trace(screen: Screen, completions: nat)

  function Run(s: Screen, events: seq<Event>): (t: Trace)
    requires forall i :: 0 <= i < |events| ==> WellFormed(events[i])
    // whatever happens, the cake keeps its candles and no candle is relit
    ensures |t.screen.candles| == |s.candles|
    ensures forall q :: 0 <= q < |s.candles| && !s.candles[q] ==> !t.screen.candles[q]
    ensures LitCount(t.screen.candles) <= LitCount(s.candles)
    decreases |events|
  {
    if |events| == 0 then Trace(s, 0)
    else
      var r := Step(s, events[0]);
      var rest := Run(r.screen, events[1..]);
      Trace(rest.screen, rest.completions + (if r.complete then 1 else 0))
  }

  lemma {:induction false} RunPreservesReachable(s: Screen, completions: nat, events: seq<Event>)
    requires forall i :: 0 <= i < |events| ==> WellFormed(events[i])
    requires Reachable(s, completions)
    ensures Reachable(Run(s, events).screen, completions + Run(s, events).completions)
    decreases |events|
  {
    if |events| > 0 {
      var r := Step(s, events[0]);
      StepPreservesReachable(s, completions, events[0]);
      RunPreservesReachable(r.screen, completions + (if r.complete then 1 else 0), events[1..]);
    }
  }

  /**
   * Whatever the frames, timers and draws, `onComplete` fires at most once
   * per mounted candle screen, and only after every candle is out.
   */
  lemma CompletionAtMostOnce(events: seq<Event>)
    requires forall i :: 0 <= i < |events| ==> WellFormed(events[i])
    ensures Run(Initial(), events).completions <= 1
    ensures Run(Initial(), events).completions == 1 ==> LitCount(Run(Initial(), events).screen.candles) == 0
  {
    RunPreservesReachable(Initial(), 0, events);
  }
}

=== FILE: candles.dfy ===
/**
 * The candles on the cake, reduced to their lit flags (coordinates and flame
 * geometry only matter for drawing), and `blowOutCandle`, which puts out one
 * lit candle chosen at random.
 */
module Candles {
  import opened Reals

  /** How many candles `initCandles` puts on the cake. */
  const InitialCandleCount: nat := 3

  /** Number of lit candles (`candles.filter(c => c.lit).length`). */
  function LitCount(candles: seq<bool>): (n: nat)
    ensures n <= |candles|
  {
    if |candles| == 0 then 0
    else (if candles[0] then 1 else 0) + LitCount(candles[1..])
  }

  /** No candle is lit exactly when the lit count is zero. */
  lemma {:induction false} NoneLitIff(candles: seq<bool>)
    ensures LitCount(candles) == 0 <==> forall i :: 0 <= i < |candles| ==> !candles[i]
    decreases |candles|
  {
    if |candles| > 0 {
      NoneLitIff(candles[1..]);
      assert forall i :: 1 <= i < |candles| ==> candles[i] == candles[1..][i - 1];
    }
  }

  /** `initCandles`: three candles, all lit. */
  function InitCandles(): (candles: seq<bool>)
    ensures |candles| == InitialCandleCount
    ensures LitCount(candles) == InitialCandleCount
  {
    assert LitCount([true]) == 1;
    assert [true, true][1..] == [true];
    assert [true, true, true][1..] == [true, true];
    [true, true, true]
  }

  lemma {:induction false} LitCountAppend(a: seq<bool>, b: seq<bool>)
    ensures LitCount(a + b) == LitCount(a) + LitCount(b)
    decreases |a|
  {
    if |a| == 0 {
      assert a + b == b;
    } else {
      assert (a + b)[0] == a[0];
      assert (a + b)[1..] == a[1..] + b;
      LitCountAppend(a[1..], b);
    }
  }

  /**
   * The position of the `k`-th lit candle (counting from 0), that is the
   * candle `litCandles[k]` of the source: it is lit and exactly `k` lit
   * candles precede it.
   */
  function NthLit(candles: seq<bool>, k: nat): (p: nat)
    requires k < LitCount(candles)
    ensures p < |candles| && candles[p]
    ensures LitCount(candles[..p]) == k
  {
    if candles[0] && k == 0 then
      assert candles[..0] == [];
      0
    else
      var k' := if candles[0] then k - 1 else k;
      var p' := NthLit(candles[1..], k');
      LitCountPrefixAfterFirst(candles, p');
      p' + 1
  }

  /** The lit candles among the first `p + 1` are the first one, if lit, and those among the next `p`. */
  lemma LitCountPrefixAfterFirst(candles: seq<bool>, p: nat)
    requires p < |candles|
    ensures LitCount(candles[..p + 1]) == (if candles[0] then 1 else 0) + LitCount(candles[1..][..p])
  {
    assert candles[..p + 1] == [candles[0]] + candles[1..][..p];
    LitCountAppend([candles[0]], candles[1..][..p]);
    assert [candles[0]][1..] == [];
  }

  /** Each lit candle is the `k`-th lit one for `k` the number of lit candles before it. */
  lemma {:induction false} NthLitOfLitCandle(candles: seq<bool>, p: nat)
    requires p < |candles| && candles[p]
    ensures LitCount(candles[..p]) < LitCount(candles)
    ensures NthLit(candles, LitCount(candles[..p])) == p
  {
    var k := LitCount(candles[..p]);
    assert candles == candles[..p] + candles[p..];
    LitCountAppend(candles[..p], candles[p..]);
    assert LitCount(candles[p..]) >= 1;
    var q := NthLit(candles, k);
    if q != p {
      // two distinct lit positions cannot have the same number of lit candles before them
      var lo, hi := if q < p then q else p, if q < p then p else q;
      assert candles[..hi] == candles[..lo] + candles[lo..hi];
      LitCountAppend(candles[..lo], candles[lo..hi]);
      assert false;
    }
  }

  /** `Math.floor(x)` for an `x` in [0, `bound`). */
  function FloorBelow(x: real, bound: nat): (k: nat)
    requires 0.0 <= x < bound as real
    ensures k < bound
    ensures k as real <= x < k as real + 1.0
  {
    x.Floor
  }

  /** `Math.floor(Math.random() * litCandles.length)` for a draw `rnd` in [0, 1). */
  function RandomIndex(rnd: real, count: nat): (k: nat)
    requires 0.0 <= rnd < 1.0 && count > 0
    ensures k < count
    ensures k as real <= rnd * count as real < k as real + 1.0
  {
    ScaledDrawBelow(rnd, count as real);
    FloorBelow(rnd * count as real, count)
  }

  /** The draw `k / count` selects index `k`. */
  lemma DrawSelectingIndex(k: nat, count: nat)
    requires k < count
    ensures var rnd := k as real / count as real;
      0.0 <= rnd < 1.0 && RandomIndex(rnd, count) == k
  {
    var rnd := k as real / count as real;
    MeanWithin(k as real, count as real, 1.0);
    assert rnd * count as real == k as real;
  }


  /** `candles'` is `candles` with exactly the lit candle at `p` put out. */
  predicate PutOutAt(candles: seq<bool>, candles': seq<bool>, p: int)
  {
    && |candles'| == |candles|
    && 0 <= p < |candles|
    && candles[p] && !candles'[p]
    && forall q :: 0 <= q < |candles| && q != p ==> candles'[q] == candles[q]
  }

  lemma {:induction false} PutOutDecrementsLitCount(candles: seq<bool>, candles': seq<bool>, p: int)
    requires PutOutAt(candles, candles', p)
    ensures LitCount(candles') == LitCount(candles) - 1
    decreases |candles|
  {
    if p > 0 {
      PutOutDecrementsLitCount(candles[1..], candles'[1..], p - 1);
    } else {
      assert candles[1..] == candles'[1..];
    }
  }

  /** The new candle list and whether the last lit candle just went out (which shows the message and schedules completion). */
  datatype Extinguish = Extinguish(candles: seq<bool>, completed: bool)

  /** `blowOutCandle`, with the `Math.random()` draw passed in as `rnd`. */
  function BlowOutCandle(candles: seq<bool>, rnd: real): (r: Extinguish)
    requires 0.0 <= rnd < 1.0
    // nothing lit: the list is returned as it was and nothing fires
    ensures LitCount(candles) == 0 ==> r == Extinguish(candles, false)
    // otherwise exactly one previously lit candle goes out and nothing else changes
    ensures LitCount(candles) > 0 ==> exists p :: PutOutAt(candles, r.candles, p)
    ensures LitCount(candles) > 0 ==> LitCount(r.candles) == LitCount(candles) - 1
    // a candle that was out stays out
    ensures |r.candles| == |candles|
    ensures forall q :: 0 <= q < |candles| && !candles[q] ==> !r.candles[q]
    // completion fires exactly when this call put out the last lit candle
    ensures r.completed <==> LitCount(candles) == 1
  {
    var n := LitCount(candles);
    if n == 0 then Extinguish(candles, false)
    else
      var p := NthLit(candles, RandomIndex(rnd, n));
      var candles' := candles[p := false];
      assert PutOutAt(candles, candles', p);
      PutOutDecrementsLitCount(candles, candles', p);
      Extinguish(candles', LitCount(candles') == 0)
  }

  /** Every lit candle is the one some draw puts out, so the choice ranges over all the lit candles. */
  lemma EveryLitCandleCanBeChosen(candles: seq<bool>, p: nat)
    requires p < |candles| && candles[p]
    ensures exists rnd: real :: 0.0 <= rnd < 1.0 && !BlowOutCandle(candles, rnd).candles[p]
  {
    NthLitOfLitCandle(candles, p);
    var n := LitCount(candles);
    var k := LitCount(candles[..p]);
    DrawSelectingIndex(k, n);
    var rnd := k as real / n as real;
    assert NthLit(candles, RandomIndex(rnd, n)) == p;
    assert !BlowOutCandle(candles, rnd).candles[p];
  }
}

=== FILE: counter.dfy ===
/**
 * The "time together" counter: `calculateTime` splits the milliseconds
 * elapsed since the start date into days, hours, minutes and seconds.
 */
module Counter {

  const MsPerSecond: int := 1000
  const MsPerMinute: int := 60 * MsPerSecond
  const MsPerHour: int := 60 * MsPerMinute
  const MsPerDay: int := 24 * MsPerHour

  /** `Math.floor(a / b)` for a positive divisor: the largest `q` with `q * b <= a`. */
  function FloorDiv(a: int, b: int): (q: int)
    requires b > 0
    ensures q * b <= a < q * b + b
  {
    a / b
  }

  /** JavaScript's `a % b` for a positive divisor: truncating, so the remainder takes the sign of `a`. */
  function JsRem(a: int, b: int): (r: int)
    requires b > 0
    ensures a >= 0 ==> 0 <= r < b
    ensures a < 0 ==> -b < r <= 0
    // `a - r` is `b` times the quotient truncated toward zero
    ensures a >= 0 ==> a - r == FloorDiv(a, b) * b
    ensures a < 0 ==> a - r == -FloorDiv(-a, b) * b
  {
    if a >= 0 then a - FloorDiv(a, b) * b else -((-a) - FloorDiv(-a, b) * b)
  }

  datatype Elapsed = Elapsed(days: int, hours: int, minutes: int, seconds: int)

  /** `calculateTime` for the difference `diff` (milliseconds, possibly negative). */
  function CalculateTime(diff: int): (e: Elapsed)
    ensures diff >= 0 ==> 0 <= e.days && 0 <= e.hours < 24 && 0 <= e.minutes < 60 && 0 <= e.seconds < 60
    ensures e.days * MsPerDay <= diff < e.days * MsPerDay + MsPerDay
  {
    Elapsed(
      FloorDiv(diff, MsPerDay),
      FloorDiv(JsRem(diff, MsPerDay), MsPerHour),
      FloorDiv(JsRem(diff, MsPerHour), MsPerMinute),
      FloorDiv(JsRem(diff, MsPerMinute), MsPerSecond))
  }

  /** The milliseconds a decomposition stands for, whole seconds only. */
  function ToMillis(e: Elapsed): int
  {
    e.days * MsPerDay + e.hours * MsPerHour + e.minutes * MsPerMinute + e.seconds * MsPerSecond
  }

  /** A decomposition with every unit below its carry limit. */
  predicate Normalized(e: Elapsed)
  {
    0 <= e.days && 0 <= e.hours < 24 && 0 <= e.minutes < 60 && 0 <= e.seconds < 60
  }

  /** For a non-negative difference the units add back up to it, up to the dropped milliseconds. */
  lemma CalculateTimeReconstructs(diff: int)
    requires diff >= 0
    ensures Normalized(CalculateTime(diff))
    ensures ToMillis(CalculateTime(diff)) + JsRem(diff, MsPerSecond) == diff
  {
    var e := CalculateTime(diff);
    var qH, qM, qS := FloorDiv(diff, MsPerHour), FloorDiv(diff, MsPerMinute), FloorDiv(diff, MsPerSecond);
    CarryDown(diff, e.days, MsPerDay, 24, e.hours, qH, MsPerHour);
    CarryDown(diff, qH, MsPerHour, 60, e.minutes, qM, MsPerMinute);
    CarryDown(diff, qM, MsPerMinute, 60, e.seconds, qS, MsPerSecond);
    ToMillisInSeconds(e);
    assert diff - JsRem(diff, MsPerSecond) == qS * MsPerSecond;
  }

  /** A decomposition stands for its total count of whole seconds. */
  lemma ToMillisInSeconds(e: Elapsed)
    ensures ToMillis(e) == (((e.days * 24 + e.hours) * 60 + e.minutes) * 60 + e.seconds) * MsPerSecond
  {
    assert MsPerDay == 86400000 && MsPerHour == 3600000 && MsPerMinute == 60000 && MsPerSecond == 1000;
  }

  /**
   * One step of the decomposition: if `big` is the number of whole
   * `bigUnit`s (each `n` units) in `diff`, and `small` the number of whole
   * units in what is left, then `diff` holds `big * n + small` whole units.
   */
  lemma CarryDown(diff: int, big: int, bigUnit: int, n: int, small: int, q: int, unit: int)
    requires unit > 0 && n > 0 && bigUnit == n * unit
    requires big * bigUnit <= diff < big * bigUnit + bigUnit
    requires small * unit <= diff - big * bigUnit < small * unit + unit
    requires q * unit <= diff < q * unit + unit
    ensures q == big * n + small
  {
    var k := big * n + small;
    assert big * bigUnit + small * unit == k * unit by {
      assert big * bigUnit == (big * n) * unit;
    }
    if q < k {
      MulGap(q, k, unit);
      assert false;
    } else if q > k {
      MulGap(k, q, unit);
      assert false;
    }
  }

  /** Distinct multiples of a positive unit are at least a unit apart. */
  lemma MulGap(a: int, b: int, unit: int)
    requires a < b && unit > 0
    ensures a * unit + unit <= b * unit
  {
    assert b * unit - a * unit == (b - a) * unit;
    assert (b - a - 1) * unit >= 0;
  }

  /** Conversely, a normalized decomposition plus sub-second milliseconds is recovered exactly. */
  lemma CalculateTimeInvertsToMillis(e: Elapsed, ms: int)
    requires Normalized(e) && 0 <= ms < MsPerSecond
    ensures CalculateTime(ToMillis(e) + ms) == e
  {
    var diff := ToMillis(e) + ms;
    var e' := CalculateTime(diff);
    CalculateTimeReconstructs(diff);
    UniqueDecomposition(e, ms, e', JsRem(diff, MsPerSecond));
  }

  /** Mixed-radix representations are unique. */
  lemma UniqueDecomposition(a: Elapsed, msA: int, b: Elapsed, msB: int)
    requires Normalized(a) && Normalized(b)
    requires 0 <= msA < MsPerSecond && 0 <= msB < MsPerSecond
    requires ToMillis(a) + msA == ToMillis(b) + msB
    ensures a == b
  {
    ToMillisInSeconds(a);
    ToMillisInSeconds(b);
    var hA, hB := a.days * 24 + a.hours, b.days * 24 + b.hours;
    var mA, mB := hA * 60 + a.minutes, hB * 60 + b.minutes;
    DigitUnique(mA * 60 + a.seconds, msA, mB * 60 + b.seconds, msB, MsPerSecond);
    DigitUnique(mA, a.seconds, mB, b.seconds, 60);
    DigitUnique(hA, a.minutes, hB, b.minutes, 60);
    DigitUnique(a.days, a.hours, b.days, b.hours, 24);
  }

  /** One digit of a positional representation: the quotient and the remainder are unique. */
  lemma DigitUnique(hiA: int, loA: int, hiB: int, loB: int, n: int)
    requires n > 0 && 0 <= loA < n && 0 <= loB < n
    requires hiA * n + loA == hiB * n + loB
    ensures hiA == hiB && loA == loB
  {
    if hiA < hiB {
      MulGap(hiA, hiB, n);
      assert false;
    } else if hiB < hiA {
      MulGap(hiB, hiA, n);
      assert false;
    }
  }
}

=== FILE: letter.dfy ===
/**
 * The password-protected letter: the submit handler compares the typed
 * answer with the stored password, and once unlocked a typewriter reveals
 * the letter one character per 50 ms tick.
 */
module Letter {
  import opened Text

  /** `password.toLowerCase().trim() === letter.password.toLowerCase()`: only the typed answer is trimmed. */
  predicate PasswordMatches(input: string, stored: string)
    // only white space is dropped from the answer, so it is at least as long as the stored password
    ensures PasswordMatches(input, stored) ==> |stored| <= |input|
  {
    Trim(Lower(input)) == Lower(stored)
  }

  /** The case of the typed answer does not matter. */
  lemma MatchIgnoresCase(input: string, stored: string)
    ensures PasswordMatches(Lower(input), stored) == PasswordMatches(input, stored)
  {
    LowerIdempotent(input);
  }

  /** White space typed around the answer does not matter. */
  lemma MatchIgnoresSurroundingWhitespace(before: string, input: string, after: string, stored: string)
    requires AllWhitespace(before) && AllWhitespace(after)
    ensures PasswordMatches(before + input + after, stored) == PasswordMatches(input, stored)
  {
    LowerAppend(before + input, after);
    LowerAppend(before, input);
    forall c | c in before + after ensures IsWhitespace(LowerChar(c)) {
      LowerKeepsWhitespace(c);
    }
    TrimIgnoresSurroundingWhitespace(Lower(before), Lower(input), Lower(after));
  }

  /** The stored password is not trimmed: one that begins or ends with white space is matched by no answer at all. */
  lemma StoredWhitespaceNeverMatches(input: string, stored: string)
    requires |stored| > 0 && (IsWhitespace(stored[0]) || IsWhitespace(stored[|stored| - 1]))
    ensures !PasswordMatches(input, stored)
  {
    TrimEnds(Lower(input));
    var lowered := Lower(stored);
    LowerKeepsWhitespace(stored[0]);
    LowerKeepsWhitespace(stored[|stored| - 1]);
    assert IsWhitespace(lowered[0]) || IsWhitespace(lowered[|lowered| - 1]);
  }

  /** "Paris" does not open a letter whose stored password is "paris ", with the trailing space. */
  lemma ParisAgainstTrailingSpace()
    ensures !PasswordMatches("Paris", "paris ")
  {
    StoredWhitespaceNeverMatches("Paris", "paris ");
  }

  /** " Paris " does open a letter whose stored password is "paris". */
  lemma PaddedParisOpens()
    ensures PasswordMatches(" Paris ", "paris")
  {
    LowerPaddedParis();
    TrimIgnoresSurroundingWhitespace(" ", "paris", " ");
    ParisIsTrimmed();
  }

  lemma LowerPaddedParis()
    ensures Lower(" Paris ") == " " + Lower("paris") + " "
    ensures Lower("paris") == "paris"
    ensures AllWhitespace(" ")
  {
    assert Lower(" Paris ") == " paris ";
    assert Lower("paris") == "paris";
  }

  lemma ParisIsTrimmed()
    ensures Trim("paris") == "paris"
  {
    assert TrimmedAt("paris", "paris", 0);
    TrimUnique("paris", Trim("paris"), "paris");
  }

  /** The component's state; `index` is the typewriter's position in the content. */
  datatype LetterState = LetterState(
    password: string,
    unlocked: bool,
    showError: bool,
    displayed: string,
    typing: bool,
    index: nat)

  /** The `useState` initial values. */
  const Initial: LetterState := LetterState("", false, false, "", false, 0)

  /**
   * What reaches the component: a keystroke replacing the input, a submit,
   * the 3-second timer that hides the error, and the 50 ms typewriter timer.
   */
  datatype Event = Input(value: string) | Submit | ErrorTimeout | TypeTick

  /** `handlePasswordSubmit`, with the stored password passed in. */
  function HandleSubmit(s: LetterState, stored: string): (r: LetterState)
    // success unlocks and hides the error, keeping the typed answer
    ensures PasswordMatches(s.password, stored) ==>
      r.unlocked && !r.showError && r.password == s.password
    // failure shows the error and clears the input, leaving the lock as it was
    ensures !PasswordMatches(s.password, stored) ==>
      r.showError && r.password == "" && r.unlocked == s.unlocked
    // the typewriter is not touched by the handler
    ensures r.displayed == s.displayed && r.typing == s.typing && r.index == s.index
  {
    if PasswordMatches(s.password, stored) then s.(unlocked := true, showError := false)
    else s.(showError := true, password := "")
  }

  /** One call of `typeWriter`: show one more character, or stop typing at the end. */
  function TypeWriter(s: LetterState, content: string): (r: LetterState)
    requires s.index <= |content| && s.displayed == content[..s.index]
    ensures r.index <= |content| && r.displayed == content[..r.index]
    ensures s.index < |content| ==> r.index == s.index + 1 && r.typing == s.typing
    ensures s.index == |content| ==> r.index == s.index && !r.typing
    ensures r.unlocked == s.unlocked && r.password == s.password && r.showError == s.showError
  {
    if s.index < |content| then s.(displayed := content[..s.index + 1], index := s.index + 1)
    else s.(typing := false)
  }

  /**
   * Reachable states: the text shown is always the first `index` characters
   * of the content, and nothing is typed before the letter is unlocked.
   */
  predicate Consistent(s: LetterState, content: string)
  {
    && s.index <= |content|
    && s.displayed == content[..s.index]
    && (!s.unlocked ==> !s.typing && s.index == 0)
  }

  /**
   * One event. The unlock effect (`useEffect` on `isUnlocked`) runs when a
   * submit turns the lock from closed to open: it sets `isTyping` and calls
   * `typeWriter` once; later calls come from `TypeTick` while typing.
   */
  function Step(s: LetterState, e: Event, stored: string, content: string): (r: LetterState)
    requires Consistent(s, content)
    ensures Consistent(r, content)
    // unlocking is permanent
    ensures s.unlocked ==> r.unlocked
    ensures r.unlocked && !s.unlocked ==> e == Submit && PasswordMatches(s.password, stored)
    // the shown text only ever grows, one character at a time
    ensures s.index <= r.index <= s.index + 1
    // a non-empty matching answer unlocks the letter and starts the typewriter on its first character
    ensures e == Submit && s.password != "" && PasswordMatches(s.password, stored) ==>
      r.unlocked && !r.showError && r.password == s.password
    ensures !s.unlocked && r.unlocked ==>
      && r.index == (if |content| > 0 then 1 else 0)
      && r.displayed == content[..r.index]
      && (r.typing <==> |content| > 0)
    // a non-empty wrong answer shows the error and clears the input
    ensures e == Submit && s.password != "" && !PasswordMatches(s.password, stored) ==>
      r.showError && r.password == "" && r.unlocked == s.unlocked
    // an empty answer is not submitted at all
    ensures e == Submit && s.password == "" ==> r == s
    // a keystroke replaces the typed answer; the error timer hides the error
    ensures e.Input? ==> r == s.(password := e.value)
    ensures e == ErrorTimeout ==> r == s.(showError := false)
    // a typewriter tick while typing shows the next character, or stops at the end
    ensures e == TypeTick && s.typing ==>
      (if s.index < |content| then r.index == s.index + 1 && r.typing else r.index == s.index && !r.typing)
    ensures e == TypeTick && !s.typing ==> r == s
    // a tick touches only the typewriter: the answer, the error and the lock stay
    ensures e == TypeTick ==> r.unlocked == s.unlocked && r.password == s.password && r.showError == s.showError
    // a submit on an already open letter does not restart or advance the typewriter
    ensures e == Submit && s.unlocked ==> r.displayed == s.displayed && r.typing == s.typing && r.index == s.index
  {
    match e
    case Input(value) => s.(password := value)
    case Submit =>
      // the input is `required`: the browser does not submit an empty form
      if s.password == "" then s else
      var r := HandleSubmit(s, stored);
      if !s.unlocked && r.unlocked then TypeWriter(r.(typing := true, index := 0), content) else r
    case ErrorTimeout => s.(showError := false)
    case TypeTick => if s.typing then TypeWriter(s, content) else s
  }

  lemma InitialConsistent(content: string)
    ensures Consistent(Initial, content)
  {
  }

  /** `n` consecutive typewriter calls. */
  function TypeWriterCalls(s: LetterState, content: string, n: nat): (r: LetterState)
    requires s.index <= |content| && s.displayed == content[..s.index]
    ensures r.index <= |content| && r.displayed == content[..r.index]
    decreases n
  {
    if n == 0 then s else TypeWriterCalls(TypeWriter(s, content), content, n - 1)
  }

  /**
   * Starting from an empty display, after `n` calls the first `n`
   * characters are shown; typing stops on the call after the last
   * character, so empty content stops at once with nothing shown.
   */
  lemma {:induction false} TypeWriterProgress(s: LetterState, content: string, n: nat)
    requires s.index == 0 && s.displayed == "" && s.typing
    ensures n <= |content| ==>
      TypeWriterCalls(s, content, n).displayed == content[..n] && TypeWriterCalls(s, content, n).typing
    ensures n > |content| ==>
      TypeWriterCalls(s, content, n).displayed == content && !TypeWriterCalls(s, content, n).typing
  {
    TypeWriterFrom(s, content, n);
  }

  lemma {:induction false} TypeWriterFrom(s: LetterState, content: string, n: nat)
    requires s.index <= |content| && s.displayed == content[..s.index] && s.typing
    ensures s.index + n <= |content| ==>
      TypeWriterCalls(s, content, n).index == s.index + n && TypeWriterCalls(s, content, n).typing
    ensures s.index + n > |content| ==>
      TypeWriterCalls(s, content, n).index == |content| && !TypeWriterCalls(s, content, n).typing
    decreases n
  {
    if n > 0 {
      var t := TypeWriter(s, content);
      if s.index < |content| {
        TypeWriterFrom(t, content, n - 1);
      } else {
        StoppedTypeWriterStays(t, content, n - 1);
      }
    }
  }

  lemma {:induction false} StoppedTypeWriterStays(s: LetterState, content: string, n: nat)
    requires s.index == |content| && s.displayed == content && !s.typing
    ensures TypeWriterCalls(s, content, n) == s
    decreases n
  {
    if n > 0 {
      assert TypeWriter(s, content) == s;
      StoppedTypeWriterStays(s, content, n - 1);
    }
  }

  /** The letter after a sequence of events. */
  function Run(s: LetterState, events: seq<Event>, stored: string, content: string): (r: LetterState)
    requires Consistent(s, content)
    ensures Consistent(r, content)
    ensures s.unlocked ==> r.unlocked
    decreases |events|
  {
    if |events| == 0 then s else Run(Step(s, events[0], stored, content), events[1..], stored, content)
  }

  /** The typed answer is empty or wrong. */
  predicate WrongOrEmpty(password: string, stored: string)
  {
    password == "" || !PasswordMatches(password, stored)
  }

  /** Unless the right answer is typed at some point, the letter stays locked and nothing is shown. */
  lemma {:induction false} LockedWithoutCorrectAnswer(s: LetterState, events: seq<Event>, stored: string, content: string)
    requires Consistent(s, content) && !s.unlocked && WrongOrEmpty(s.password, stored)
    requires forall i :: 0 <= i < |events| ==> events[i].Input? ==> WrongOrEmpty(events[i].value, stored)
    ensures !Run(s, events, stored, content).unlocked
    ensures Run(s, events, stored, content).displayed == ""
    decreases |events|
  {
    if |events| > 0 {
      var t := Step(s, events[0], stored, content);
      assert !t.unlocked && WrongOrEmpty(t.password, stored);
      LockedWithoutCorrectAnswer(t, events[1..], stored, content);
    }
  }
}

=== FILE: notes_gallery.dfy ===
/**
 * The notes gallery: clicking a note's heart toggles it open, and only the
 * note whose id is selected shows its content.
 */
module NotesGallery {
  import opened Wrappers

  /** One entry of the static notes list. */
  datatype Note = Note(id: int, emoji: string, title: string, content: string)

  /** `useState<number | null>(null)`: no note is open at first. */
  const NoSelection: Option<int> := None

  /** `selectedNote === note.id`: the note's content is expanded and its heart highlighted. */
  predicate Expanded(selected: Option<int>, id: int)
    // nothing is expanded without a selection
    ensures Expanded(selected, id) ==> selected.Some?
  {
    selected == Some(id)
  }

  /** `handleNoteClick(id)`. */
  function HandleNoteClick(selected: Option<int>, id: int): (r: Option<int>)
    // the clicked note flips between open and closed
    ensures Expanded(r, id) <==> !Expanded(selected, id)
    // every other note ends up closed
    ensures forall other :: other != id ==> !Expanded(r, other)
  {
    if selected == Some(id) then None else Some(id)
  }

  /** A selection expands at most one id. */
  lemma ExpandedIdUnique(selected: Option<int>, id: int, other: int)
    requires Expanded(selected, id) && Expanded(selected, other)
    ensures id == other
  {
  }

  /** Nothing is expanded before the first click. */
  lemma InitiallyNothingExpanded(id: int)
    ensures !Expanded(NoSelection, id)
  {
  }

  /**
   * Clicking the same note twice restores an open note, and otherwise leaves
   * every note closed (including when another note was open before).
   */
  lemma ClickTwice(selected: Option<int>, id: int)
    ensures HandleNoteClick(HandleNoteClick(selected, id), id) ==
      (if Expanded(selected, id) then selected else None)
  {
  }

  /** Positions in the list whose content is shown. */
  function ExpandedPositions(notes: seq<Note>, selected: Option<int>): (ps: set<int>)
  {
    set p | 0 <= p < |notes| && Expanded(selected, notes[p].id)
  }

  predicate DistinctIds(notes: seq<Note>)
  {
    forall i, j :: 0 <= i < j < |notes| ==> notes[i].id != notes[j].id
  }

  /**
   * With distinct ids, clicking the note at position `p` shows that note
   * alone, or, when it was the open one, closes it and shows nothing.
   */
  lemma ClickShowsOnlyClickedNote(notes: seq<Note>, selected: Option<int>, p: int)
    requires DistinctIds(notes) && 0 <= p < |notes|
    ensures ExpandedPositions(notes, HandleNoteClick(selected, notes[p].id)) ==
      (if Expanded(selected, notes[p].id) then {} else {p})
  {
    var after := HandleNoteClick(selected, notes[p].id);
    var ps := ExpandedPositions(notes, after);
    if Expanded(selected, notes[p].id) {
      assert ps == {};
    } else {
      assert ps == {p};
    }
  }

  /** With distinct ids, at most one note is expanded at any time, whatever the clicks. */
  lemma AtMostOneExpanded(notes: seq<Note>, selected: Option<int>)
    requires DistinctIds(notes)
    ensures |ExpandedPositions(notes, selected)| <= 1
  {
    var ps := ExpandedPositions(notes, selected);
    if ps != {} {
      var p :| p in ps;
      assert ps == {p};
    }
  }
}

=== FILE: reals.dfy ===
/**
 * Small facts about real multiplication and division, proved one at a time
 * so that the callers never leave non-linear real arithmetic to the solver.
 */
module Reals {

  /** A product of two positive reals is positive. */
  lemma ProductPositive(a: real, b: real)
    requires a > 0.0 && b > 0.0
    ensures a * b > 0.0
  {
  }

  /** A product of two non-negative reals is non-negative. */
  lemma ProductNonnegative(a: real, b: real)
    requires a >= 0.0 && b >= 0.0
    ensures a * b >= 0.0
  {
  }

  /** Dividing by a positive count preserves a strict comparison with a threshold. */
  lemma MeanAboveIff(sum: real, count: real, threshold: real)
    requires count > 0.0
    ensures sum / count > threshold <==> sum > threshold * count
  {
    var mean := sum / count;
    assert mean * count == sum;
    assert sum - threshold * count == (mean - threshold) * count;
    if mean > threshold {
      ProductPositive(mean - threshold, count);
    }
    if sum > threshold * count && mean <= threshold {
      ProductNonnegative(threshold - mean, count);
    }
  }

  /** The mean of a non-negative sum bounded by `bound` per item lies between 0 and `bound`. */
  lemma MeanWithin(sum: real, count: real, bound: real)
    requires count > 0.0 && 0.0 <= sum <= bound * count
    ensures 0.0 <= sum / count <= bound
  {
    MeanAboveIff(sum, count, bound);
    var mean := sum / count;
    assert mean * count == sum;
    if mean < 0.0 {
      ProductPositive(0.0 - mean, count);
    }
  }

  /** Scaling a positive count by a draw in [0, 1) stays below the count. */
  lemma ScaledDrawBelow(rnd: real, count: real)
    requires 0.0 <= rnd < 1.0 && count > 0.0
    ensures 0.0 <= rnd * count < count
  {
    ProductNonnegative(rnd, count);
    ProductPositive(1.0 - rnd, count);
    assert count - rnd * count == (1.0 - rnd) * count;
  }
}

=== FILE: text.dfy ===
/**
 * The two string operations the letter's password check uses:
 * `toLowerCase` (restricted to ASCII letters) and `trim`, which strips
 * JavaScript white space and line terminators from both ends.
 */
module Text {

  /** The characters `String.prototype.trim` removes: JavaScript WhiteSpace (including the Zs space separators) and LineTerminator. */
  predicate IsWhitespace(c: char)
    // letters and digits are never white space
    ensures IsWhitespace(c) ==> !('A' <= c <= 'Z') && !('a' <= c <= 'z') && !('0' <= c <= '9')
  {
    var n := c as int;
    || n == 0x09 || n == 0x0A || n == 0x0B || n == 0x0C || n == 0x0D || n == 0x20
    || n == 0xA0 || n == 0x1680 || (0x2000 <= n <= 0x200A)
    || n == 0x2028 || n == 0x2029 || n == 0x202F || n == 0x205F || n == 0x3000 || n == 0xFEFF
  }

  predicate AllWhitespace(s: string)
  {
    forall i :: 0 <= i < |s| ==> IsWhitespace(s[i])
  }

  predicate IsUpper(c: char)
  {
    'A' <= c <= 'Z'
  }

  /** Lower-casing of one character, for ASCII letters. */
  function LowerChar(c: char): (d: char)
    ensures !IsUpper(d)
    ensures IsUpper(c) ==> d as int - c as int == 'a' as int - 'A' as int
    ensures !IsUpper(c) ==> d == c
  {
    if IsUpper(c) then (c as int - 'A' as int + 'a' as int) as char else c
  }

  /** `s.toLowerCase()`, for ASCII letters. */
  function Lower(s: string): (r: string)
    ensures |r| == |s|
    ensures forall i :: 0 <= i < |s| ==> r[i] == LowerChar(s[i])
    // no upper-case letter is left, and only upper-case letters change
    ensures forall i :: 0 <= i < |r| ==> !IsUpper(r[i])
    ensures forall i :: 0 <= i < |s| && r[i] != s[i] ==> IsUpper(s[i])
  {
    seq(|s|, i requires 0 <= i < |s| => LowerChar(s[i]))
  }

  /** Lower-casing twice is lower-casing once. */
  lemma LowerIdempotent(s: string)
    ensures Lower(Lower(s)) == Lower(s)
  {
  }

  /** Lower-casing works character by character, so it distributes over concatenation. */
  lemma LowerAppend(a: string, b: string)
    ensures Lower(a + b) == Lower(a) + Lower(b)
  {
  }

  /** Lower-casing neither creates nor removes white space. */
  lemma LowerKeepsWhitespace(c: char)
    ensures IsWhitespace(LowerChar(c)) <==> IsWhitespace(c)
  {
  }

  lemma AllWhitespaceAppend(a: string, b: string)
    requires AllWhitespace(a) && AllWhitespace(b)
    ensures AllWhitespace(a + b)
  {
  }

  /** Number of leading white-space characters. */
  function LeadingWhitespace(s: string): (k: nat)
    ensures k <= |s|
    ensures AllWhitespace(s[..k])
    ensures k < |s| ==> !IsWhitespace(s[k])
  {
    if |s| > 0 && IsWhitespace(s[0]) then
      var k' := LeadingWhitespace(s[1..]);
      assert s[..k' + 1] == [s[0]] + s[1..][..k'];
      AllWhitespaceAppend([s[0]], s[1..][..k']);
      k' + 1
    else 0
  }

  /** Number of trailing white-space characters. */
  function TrailingWhitespace(s: string): (k: nat)
    ensures k <= |s|
    ensures AllWhitespace(s[|s| - k..])
    ensures k < |s| ==> !IsWhitespace(s[|s| - k - 1])
  {
    if |s| > 0 && IsWhitespace(s[|s| - 1]) then
      var init := s[..|s| - 1];
      var k' := TrailingWhitespace(init);
      TrailingExtends(s, k');
      k' + 1
    else 0
  }

  /** A white-space last character extends the trailing white space of the rest by one. */
  lemma TrailingExtends(s: string, k: nat)
    requires |s| > 0 && IsWhitespace(s[|s| - 1])
    requires k <= |s| - 1 && AllWhitespace(s[..|s| - 1][|s| - 1 - k..])
    requires k < |s| - 1 ==> !IsWhitespace(s[..|s| - 1][|s| - 1 - k - 1])
    ensures AllWhitespace(s[|s| - (k + 1)..])
    ensures k + 1 < |s| ==> !IsWhitespace(s[|s| - (k + 1) - 1])
  {
    var init := s[..|s| - 1];
    assert s[|s| - (k + 1)..] == init[|init| - k..] + [s[|s| - 1]];
    AllWhitespaceAppend(init[|init| - k..], [s[|s| - 1]]);
  }

  /**
   * `r` is what trimming `s` should give: `r` occurs in `s` at some offset
   * `i`, everything before and after it is white space, and `r` neither
   * starts nor ends with white space.
   */
  ghost predicate IsTrimOf(s: string, r: string)
  {
    exists i :: TrimmedAt(s, r, i)
  }

  ghost predicate TrimmedAt(s: string, r: string, i: int)
  {
    && 0 <= i <= i + |r| <= |s|
    && r == s[i..i + |r|]
    && AllWhitespace(s[..i])
    && AllWhitespace(s[i + |r|..])
    && (|r| > 0 ==> !IsWhitespace(r[0]) && !IsWhitespace(r[|r| - 1]))
  }

  /** `s.trim()`. */
  function Trim(s: string): (r: string)
    ensures IsTrimOf(s, r)
    ensures |r| <= |s|
  {
    var lead := LeadingWhitespace(s);
    if lead == |s| then
      assert TrimmedAt(s, [], |s|);
      []
    else
      var trail := TrailingWhitespace(s);
      TrailingCovers(s);
      assert trail < |s| - lead;
      TrimmedBetween(s, lead, trail);
      s[lead..|s| - trail]
  }

  /** Every character of the trailing white space is white space. */
  lemma TrailingCovers(s: string)
    ensures forall j :: |s| - TrailingWhitespace(s) <= j < |s| ==> IsWhitespace(s[j])
  {
    var k := TrailingWhitespace(s);
    forall j | |s| - k <= j < |s| ensures IsWhitespace(s[j]) {
      assert s[j] == s[|s| - k..][j - (|s| - k)];
    }
  }

  /** Cutting white space from both ends, up to a non-white-space character on each side, trims. */
  lemma TrimmedBetween(s: string, lead: nat, trail: nat)
    requires lead + trail < |s|
    requires AllWhitespace(s[..lead]) && AllWhitespace(s[|s| - trail..])
    requires !IsWhitespace(s[lead]) && !IsWhitespace(s[|s| - trail - 1])
    ensures TrimmedAt(s, s[lead..|s| - trail], lead)
  {
    var r := s[lead..|s| - trail];
    assert r[0] == s[lead];
    assert r[|r| - 1] == s[|s| - trail - 1];
  }

  /** A trimmed string neither starts nor ends with white space. */
  lemma TrimEnds(s: string)
    ensures var t := Trim(s);
      |t| > 0 ==> !IsWhitespace(t[0]) && !IsWhitespace(t[|t| - 1])
  {
    var t := Trim(s);
    var i :| TrimmedAt(s, t, i);
  }

  /** The characterization pins the trimmed string down: there is only one. */
  lemma TrimUnique(s: string, r1: string, r2: string)
    requires IsTrimOf(s, r1) && IsTrimOf(s, r2)
    ensures r1 == r2
  {
    var i1 :| TrimmedAt(s, r1, i1);
    var i2 :| TrimmedAt(s, r2, i2);
    if |r1| > 0 && |r2| > 0 {
      FirstNonWhitespace(s, r1, i1, r2, i2);
      FirstNonWhitespace(s, r2, i2, r1, i1);
      var j1, j2 := i1 + |r1|, i2 + |r2|;
      if j1 < j2 {
        assert false;
      } else if j2 < j1 {
        assert false;
      }
    } else if |r1| > 0 {
      NonemptyTrimExcludesEmpty(s, r1, i1, i2);
    } else if |r2| > 0 {
      NonemptyTrimExcludesEmpty(s, r2, i2, i1);
    }
  }

  /** A non-empty trim starts at the first non-white-space character. */
  lemma FirstNonWhitespace(s: string, r1: string, i1: int, r2: string, i2: int)
    requires TrimmedAt(s, r1, i1) && TrimmedAt(s, r2, i2) && |r1| > 0 && |r2| > 0
    ensures i1 <= i2
  {
    if i2 < i1 {
      assert false;
    }
  }

  /** A string with a non-white-space character does not trim to the empty string. */
  lemma NonemptyTrimExcludesEmpty(s: string, r: string, i: int, k: int)
    requires TrimmedAt(s, r, i) && |r| > 0
    ensures !TrimmedAt(s, [], k)
  {
    if TrimmedAt(s, [], k) {
      assert false;
    }
  }

  /** Trimming twice is trimming once. */
  lemma TrimIdempotent(s: string)
    ensures Trim(Trim(s)) == Trim(s)
  {
    var r := Trim(s);
    if |r| > 0 {
      assert TrimmedAt(r, r, 0);
    } else {
      assert TrimmedAt(r, r, 0);
    }
    TrimUnique(r, Trim(r), r);
  }

  /** White space before a string, followed by white space at its start, is white space. */
  lemma WhitespaceBeforeOffset(before: string, s: string, after: string, i: int)
    requires AllWhitespace(before) && 0 <= i <= |s| && AllWhitespace(s[..i])
    ensures AllWhitespace((before + s + after)[..|before| + i])
  {
    assert (before + s + after)[..|before| + i] == before + s[..i];
    AllWhitespaceAppend(before, s[..i]);
  }

  /** White space at the end of a string, followed by white space after it, is white space. */
  lemma WhitespaceAfterOffset(before: string, s: string, after: string, j: int)
    requires AllWhitespace(after) && 0 <= j <= |s| && AllWhitespace(s[j..])
    ensures AllWhitespace((before + s + after)[|before| + j..])
  {
    assert (before + s + after)[|before| + j..] == s[j..] + after;
    AllWhitespaceAppend(s[j..], after);
  }

  /** Surrounding a string with white space moves where its trim sits, and nothing else. */
  lemma TrimmedAtShifted(before: string, s: string, after: string, t: string, i: int)
    requires AllWhitespace(before) && AllWhitespace(after) && TrimmedAt(s, t, i)
    ensures TrimmedAt(before + s + after, t, |before| + i)
  {
    var whole := before + s + after;
    var j := |before| + i;
    assert whole[j..j + |t|] == s[i..i + |t|];
    WhitespaceBeforeOffset(before, s, after, i);
    WhitespaceAfterOffset(before, s, after, i + |t|);
  }

  /** White space added around a string is trimmed away again. */
  lemma TrimIgnoresSurroundingWhitespace(before: string, s: string, after: string)
    requires AllWhitespace(before) && AllWhitespace(after)
    ensures Trim(before + s + after) == Trim(s)
  {
    var t := Trim(s);
    var i :| TrimmedAt(s, t, i);
    TrimmedAtShifted(before, s, after, t, i);
    TrimUnique(before + s + after, Trim(before + s + after), t);
  }
}

=== FILE: wrappers.dfy ===
/** The optional value used for nullable fields of the app (`number | null`). */
module Wrappers {

  datatype Option<+T> = None | Some(value: T)

}
